=== FILE: README.md ===
# OmniPraise core, modelled in Dafny

OmniPraise is a client-side devotional browser. It pages through a fixed list
of short praises, and can translate each page and narrate items through a
remote generative-AI service. This project models the sequential logic under
its React interface and proves properties of that model:

- `gateway.dfy` (module `Gateway`) models the batch fetch-and-cache gateway
  of `services/geminiService.ts`. It covers:
  - the category filter and the page slice (JavaScript `slice` semantics,
    negative indices included);
  - the English passthrough;
  - the memoisation map under the key `lang-category-page`;
  - assembling a remote answer;
  - the attempt loop, with its linear back-off;
  - the two byte-level decoders used before playback.

  The remote model call is an oracle `answer: nat -> Response`: `answer(k)`
  is what attempt `k` sees, either `RemoteFail` or `RemoteOk(parsed)`. The
  class `Service` holds the module-level cache. It also records every sleep
  in `delays` and counts remote calls in `calls`. Its two methods are proved
  against the pure specification `FetchSpec` / `RetrySpec`, and the
  properties of the gateway are lemmas about that specification.
- `app.dfy` (module `AppLogic`) models the state rules of `App.tsx`:
  - the favourites toggle, keyed on the displayed text;
  - the page count and the Prev/Next updaters;
  - the verse-of-the-day index;
  - the display precedence and the case-insensitive search;
  - tab routing and the `loadPraises` guard;
  - the worship player, one round at a time.

  The class `App` holds the component's state fields. Its methods change
  only the fields their `modifies` clause names. `Valid()` keeps the
  page at least 1 and the counters non-negative. It does not keep the page
  below the page count: choosing a category leaves the page as it was, and
  that can be past the last page of the new category.
- `card.dfy` (module `Card`) models `components/PraiseCard.tsx`:
  - the dampened swipe and the release decision;
  - the overlay opacity;
  - the speak button's re-entrancy guard.

  It works over exact reals.
- `types.dfy` (module `Types`) holds the records of `types.ts`, the static
  list entry, the untranslated display form and the spoken-text format.

The static list, the language table and the category table are parameters.
The date string, the parsed remote answers, the touch coordinates and the
outcome of a narration are inputs.

Behaviour of the code that the model keeps:

- The cache is consulted before the batch is computed (`services/geminiService.ts:45-46`). The key `lang-category-page` leaves out the page size. A call can therefore be answered from an entry that a call with another page size stored, even when its own batch would be empty. Both callers in `App.tsx` (lines 112 and 178) pass a page size of 10, so for them the key identifies the batch.
- A page below 1 is not rejected. Page 0 gives an empty batch. A negative page counts from the end of the list, because `slice` does (`Gateway.NegativePageCountsFromEnd`).
- A negative retry budget skips the loop, and the call returns `[]` (`services/geminiService.ts:129`).
- In the worship loop, the translated-batch fetch (`App.tsx:178`) sits outside the `try`. When it throws after its retries, the round stalls. The index does not advance and `playerLoadingItem` stays set (`WorshipStep.Stalled`). Only a narration that settles, played or failed, advances the index.
- `handleSpeak` sets `isPlaying` after the narration has finished and clears it again in the same `finally`. The flag is therefore never true while audio plays, so the `isPlaying` half of the guard never fires. `Card.PraiseCard.EndSpeak` models this as written.

## Model

| member | source | states |
|---|---|---|
| Types.Untranslated | App.tsx:209-215 | an untranslated entry shows its English text in both text fields, keeps id, reference and category, and has no phonetic |
| Types.Passthrough | services/geminiService.ts:58-66 | same length and order as the batch, each item the untranslated form of the entry at the same position |
| Types.SpokenText | components/PraiseCard.tsx:34 | the spoken text is the text, then ". Reference: ", then the reference, with those exact lengths and positions |
| Types.SpokenTextInjective | App.tsx:183 | with one reference, two spoken texts are equal iff their leading texts are |
| Types.FindFirst | services/geminiService.ts:108 | finds nothing iff no element has the key; otherwise the element at the first position with the key, as `Array.prototype.find` returns |
| Gateway.NatToDecimal | services/geminiService.ts:45 | the page number is written as a non-empty string of decimal digits |
| Gateway.NumberToString | services/geminiService.ts:45 | the decimal rendering of a page number, a leading "-" for negatives; NumberRoundTrip proves it injective |
| Gateway.DecimalRoundTrip | services/geminiService.ts:45 | reading the decimal numeral back gives the number |
| Gateway.NumberRoundTrip | services/geminiService.ts:45 | the signed rendering of a page number can be read back, so distinct numbers render differently |
| Gateway.CacheKey | services/geminiService.ts:45 | the key is the language, '-', the category, '-', the page number, at the stated positions |
| Gateway.CacheKeySeparatesPages | services/geminiService.ts:45-46 | for one language and category, two keys are equal iff the pages are |
| Gateway.KeepCategory | services/geminiService.ts:51 | the filtered list is no longer than the list |
| Gateway.KeepCategoryCounts | services/geminiService.ts:51 | each entry of the category is kept exactly as often as it occurs, and no other entry is kept |
| Gateway.KeepCategoryAppend | services/geminiService.ts:51 | filtering distributes over concatenation, so source order is kept |
| Gateway.Filtered | services/geminiService.ts:49-51 | "All" yields the whole list; another category yields exactly its entries with their multiplicities |
| Gateway.RelativeIndex | services/geminiService.ts:54 | a slice index resolves into [0, len], with negative values counting from the end |
| Gateway.JsSlice | services/geminiService.ts:54 | the slice has length max(0, to - from) of the resolved indices and holds the elements from `from` on |
| Gateway.Batch | services/geminiService.ts:48-54 | the page of the category view; BatchIsWindow, PageZeroIsEmpty and NegativePageCountsFromEnd characterise it |
| Gateway.BatchIsWindow | services/geminiService.ts:53-56 | for page >= 1, the batch is the view's window [(page-1)*size, min(len, page*size)), empty past the end, and at most `size` long |
| Gateway.PageZeroIsEmpty | services/geminiService.ts:53-54 | page 0 yields no entries |
| Gateway.NegativePageCountsFromEnd | services/geminiService.ts:53-54 | page -1 yields the next-to-last window of the view |
| Gateway.Assemble | services/geminiService.ts:107-117 | one record per parsed object, in order, with id, text, phonetic and reference taken from it; translation and category come from the first batch entry with that id, or "" and "General" when none matches or the category is empty |
| Gateway.Backoff | services/geminiService.ts:122-123 | k sleeps, the i-th lasting 1000*(i+1) ms |
| Gateway.BackoffTotal | services/geminiService.ts:122-123 | k sleeps last 500*k*(k+1) ms in total |
| Gateway.DefaultBackoff | services/geminiService.ts:122-123 | with the default budget of 3, the sleeps are 1000, 2000 and 3000 ms, 6000 ms in all |
| Gateway.FirstOk | services/geminiService.ts:81-120 | the earliest attempt in range whose answer parsed, with every earlier one failed; none iff all attempts in range fail |
| Gateway.RetrySpec | services/geminiService.ts:81-129 | the specification of the attempt loop; AttemptBudget, ExhaustedBudgetThrows, RetryReturnsFirstSuccess and OnlySuccessIsCached characterise it |
| Gateway.FetchSpec | services/geminiService.ts:38-130 | the specification of one fetch call; CacheHitReturnsStored, EnglishIsPassthrough, PastLastPageIsFree and RefetchIsStable characterise it |
| Gateway.CacheHitReturnsStored | services/geminiService.ts:45-46 | on a hit the stored list is returned and the state is untouched |
| Gateway.EnglishIsPassthrough | services/geminiService.ts:58-66 | English returns the batch in order with both text fields the English text and the reference kept, makes no call and writes no cache |
| Gateway.PastLastPageIsFree | services/geminiService.ts:53-56 | a page past the end returns [] without a call and without a cache write |
| Gateway.ThreeEntriesInPagesOfTwo | services/geminiService.ts:38-66 | three English entries in pages of two: page 1 gives the first two, page 2 the third, page 3 nothing, all without a call |
| Gateway.OnlySuccessIsCached | services/geminiService.ts:119-127 | the cache changes only by storing exactly the delivered list under the call's key; a thrown call leaves it unchanged |
| Gateway.AttemptBudget | services/geminiService.ts:81-127 | at most retries+1 remote calls; a throw means all of them failed, exactly retries+1 were made, and the sleeps were 1000, 2000, ... |
| Gateway.ExhaustedBudgetThrows | services/geminiService.ts:81-129 | on a remote fetch, when every one of the retries+1 attempts fails the call throws after retries+1 calls and the sleeps 1000, 2000, ..., and the cache is unchanged; a negative budget returns [] with nothing done |
| Gateway.RetryReturnsFirstSuccess | services/geminiService.ts:81-120 | if attempt k is the first that parses, that answer is assembled, cached and returned, after k sleeps and k+1 calls |
| Gateway.RefetchIsStable | services/geminiService.ts:45-46 | fetching again right after a delivered call returns the same list and makes no remote call |
| Gateway.Service.constructor | services/geminiService.ts:6 | the cache starts empty, with no sleeps and no calls |
| Gateway.Service.RequestWithRetry | services/geminiService.ts:81-129 | the new cache, sleeps and calls, and the result, are those of the attempt-loop specification |
| Gateway.Service.FetchPraisesBatch | services/geminiService.ts:38-130 | the result and the new state are those of the specification of one fetch call |
| Gateway.DecodeBase64 | services/geminiService.ts:9-17 | one byte per character of the binary string, byte i being character code i modulo 256 |
| Gateway.BytesToBinary | services/geminiService.ts:14 | the string a byte sequence stands for has one character per byte, with that code |
| Gateway.ByteCopyLosesNothing | services/geminiService.ts:10-15 | for a decoded binary string (all codes below 256), the bytes give the string back |
| Gateway.Int16At | services/geminiService.ts:25 | the sample lies in [-32768, 32768) and equals the two bytes' little-endian value modulo 65536 |
| Gateway.Int16View | services/geminiService.ts:25 | half as many samples as bytes, sample k made from bytes 2k and 2k+1 |
| Gateway.ChannelSample | services/geminiService.ts:32 | a scaled sample lies in [-1, 1) |
| Gateway.FillChannel | services/geminiService.ts:28-33 | one channel's row receives sample i*channels+channel scaled by 1/32768 for every frame i; no other row changes |
| Gateway.DecodeAudioData | services/geminiService.ts:19-36 | fails iff the byte count is odd or the samples do not fill one frame; otherwise the buffer has `channels` rows of len/channels frames, each sample the interleaved 16-bit value scaled by 1/32768 |
| AppLogic.WithoutText | App.tsx:131 | removal never lengthens the list |
| AppLogic.WithoutTextCounts | App.tsx:131 | after removal no entry has the text, and every other entry keeps its multiplicity |
| AppLogic.WithoutAbsentText | App.tsx:131 | removing a text no entry has changes nothing |
| AppLogic.WithoutTextAppend | App.tsx:131 | removal distributes over concatenation, so survivors keep their order |
| AppLogic.ToggleFavorite | App.tsx:128-134 | with the text present, every entry with it is removed; otherwise the praise is appended at the end |
| AppLogic.ToggleFlipsFavorite | App.tsx:130-132 | after a toggle the card's heart is the negation of what it was |
| AppLogic.ToggleTwiceRestores | App.tsx:128-134 | toggling an absent praise twice restores the list |
| AppLogic.FilteredCount | App.tsx:58-61 | the count is the length of the gateway's category view |
| AppLogic.TotalPages | App.tsx:63 | the page count is the least number of 10-item pages, at least one, that holds the count |
| AppLogic.PagesCoverTheView | App.tsx:58-63 | every page up to the last has items, if there are any, and the page after the last has none |
| AppLogic.PrevPage | App.tsx:457 | Prev gives at least 1, and p-1 when p > 1 |
| AppLogic.NextPage | App.tsx:470 | Next gives p+1 below the last page, and the last page from the last page or beyond it |
| AppLogic.NavigationStaysInRange | App.tsx:457-470 | from a page in [1, total], both buttons stay in [1, total] |
| AppLogic.PageAfterCategoryAsWritten | App.tsx:367 | choosing a category keeps the page number |
| AppLogic.CategoryChangeStrandsPage | App.tsx:367 | a page valid for "All" can lie past the last page of the chosen category, whose batch is then empty |
| AppLogic.PageAfterCategoryChange | App.tsx:484-485 | choosing a category goes back to page 1, as choosing a language does |
| AppLogic.CategoryChangeShowsFirstPage | App.tsx:484-485 | under the corrected rule the page after a category change is in range, and shows the category's first entry whenever it has one |
| AppLogic.DateSeed | App.tsx:41-43 | the seed is the sum of the date string's character codes |
| AppLogic.JsRem | App.tsx:44-45 | JavaScript's remainder: the dividend minus the divisor times the quotient truncated toward zero, strictly within the divisor's magnitude, with the dividend's sign |
| AppLogic.DailyIndex | App.tsx:44-45 | for a non-negative shuffle count the daily index is a valid position, whatever the seed |
| AppLogic.DailyIndexClosedForm | App.tsx:42-45 | the daily index is the date's character-code sum plus the shuffle count, modulo the list length |
| AppLogic.ShuffleAdvancesByOne | App.tsx:280 | one shuffle moves the daily index to the next entry, wrapping at the end |
| AppLogic.DailyPraise | App.tsx:40-54 | the verse of the day is the untranslated entry at the date's code sum plus the shuffle count, modulo the list length |
| AppLogic.ShuffleShowsNextVerse | App.tsx:44-46 | after one more shuffle the verse shown is the next entry, or the first after the last |
| AppLogic.Lower | App.tsx:206 | lower-casing keeps the length and maps each character |
| AppLogic.Contains | App.tsx:208 | `includes`: the query occurs at some position of the text |
| AppLogic.Matches | App.tsx:208 | the lower-cased query occurs in the lower-cased text or reference |
| AppLogic.SearchHits | App.tsx:207-208 | the hits are no more than the list |
| AppLogic.SearchHitsCounts | App.tsx:207-208 | the hits are exactly the matching entries, each as often as it occurs |
| AppLogic.SearchHitsAppend | App.tsx:207-208 | the search distributes over concatenation, so hits keep list order |
| AppLogic.DisplayedPraises | App.tsx:203-218 | what the list area shows; DisplayPrecedence characterises it |
| AppLogic.DisplayPrecedence | App.tsx:203-218 | the favourites tab shows favourites; else a query shows exactly the matching entries, untranslated and with originalText == translation; else the loaded page |
| AppLogic.WorshipPage | App.tsx:177 | the fetched page is at least 1, and its window of 10 contains the index |
| AppLogic.WorshipPageHoldsIndex | App.tsx:177-178 | the "All" batch of that page holds entry i at offset i mod 10 |
| AppLogic.SelectedLanguage | App.tsx:65-67 | the first language with the selected code when there is one, otherwise the first language |
| AppLogic.WorshipText | App.tsx:179-180 | the text of the first translated item with the entry's id when that text is non-empty, otherwise the English text |
| AppLogic.App.constructor | App.tsx:11-35 | the initial state: home tab, English, "All", page 1, nothing loaded, player idle at index 0 |
| AppLogic.App.ToggleFavoriteOf | App.tsx:128-134 | favourites become the toggle of the old list, the heart flips, and the favourites tab shows the new list |
| AppLogic.App.IsFavorite | App.tsx:439 | a card is a favourite when some favourite has its displayed text; ToggleFlipsFavorite shows a toggle flips it |
| AppLogic.App.HandleTabChange | App.tsx:136-145 | "languages" only opens the language modal and "categories" only opens the category modal; any other tab becomes active, and search is hidden unless it is home |
| AppLogic.App.PrevPageClicked | App.tsx:457 | the page becomes PrevPage of the old one and stays at least 1 |
| AppLogic.App.NextPageClicked | App.tsx:470 | the page becomes NextPage of the old one under the current page count; it is then at most the page count, so from a page past the end Next returns to the last page |
| AppLogic.App.ChangeLanguage | App.tsx:484-485 | the language is set and the page resets to 1 |
| AppLogic.App.ChangeCategory | App.tsx:367 | only the category changes; the page is kept, and may then lie past the last page |
| AppLogic.App.ChangeCategoryResettingPage | App.tsx:484-485 | the corrected category handler: the category is set and the page returns to 1, as the language handler does, which is in range |
| AppLogic.App.SetSearchQuery | App.tsx:262 | the query is replaced; outside the favourites tab a non-empty query makes the list area show its untranslated hits |
| AppLogic.App.ToggleSearch | App.tsx:238 | the search bar flips |
| AppLogic.App.Shuffle | App.tsx:280 | only the offset moves, up by one |
| AppLogic.App.LoadPraises | App.tsx:108-119 | nothing happens on the favourites or about tab or with a query; otherwise the gateway state follows the fetch specification, a thrown fetch leaves [], and loading ends |
| AppLogic.App.StartWorship | App.tsx:147-153 | index 0, active, playing, chosen language, home tab |
| AppLogic.App.StopWorship | App.tsx:155-158 | neither active nor playing |
| AppLogic.App.TogglePlaying | App.tsx:404 | the playing flag flips |
| AppLogic.App.PrepareWorshipItem | App.tsx:162-188 | an idle player does nothing; an index with no entry stops it; English narrates the entry's text and reference; another language fetches the entry's "All" page, then narrates its translation, or stalls when the fetch throws; the narration uses the selected language's name, or the first language's |
| AppLogic.App.FinishNarration | App.tsx:186-196 | a still-playing player moves to (i+1) mod N, staying in range; a stopped or paused one keeps its index |
| Card.Dampen | components/PraiseCard.tsx:79-81 | the offset equals the displacement up to 100; beyond that its magnitude is 100 + (|diff|-100)*0.2; the sign is preserved |
| Card.DampenNeverExceeds | components/PraiseCard.tsx:79-81 | the card never moves further than the finger |
| Card.DampenMonotone | components/PraiseCard.tsx:79-81 | dampening is strictly increasing |
| Card.DampenContinuous | components/PraiseCard.tsx:79-81 | dampened offsets are no further apart than the displacements, so there is no jump at ±100 |
| Card.DampenKeepsThreshold | components/PraiseCard.tsx:79-92 | the offset passes ±100 exactly when the displacement does |
| Card.SwipeDecision | components/PraiseCard.tsx:88-92 | a release favourites iff offset > 100 and shares iff offset < -100 |
| Card.SwipeOutcome | components/PraiseCard.tsx:73-92 | the outcome of start, move and release depends only on the raw displacement, with the same thresholds |
| Card.OverlayOpacity | components/PraiseCard.tsx:99 | the opacity lies in [0, 1]; it is 1 from |offset| = 100 on, and |offset|/100 below that |
| Card.ActionOverlay | components/PraiseCard.tsx:97-120 | no overlay iff the offset is 0; a heart to the right and a share icon to the left, at opacity*0.8, in (0, 0.8] |
| Card.OverlayForecastsDecision | components/PraiseCard.tsx:97-105 | whenever a release would act, the matching overlay shows at full strength |
| Card.LanguageName | components/PraiseCard.tsx:25 | the name of the first language with the code when it is non-empty, otherwise "English" |
| Card.PraiseCard.constructor | components/PraiseCard.tsx:16-22 | not swiping, offset 0, neither loading nor playing |
| Card.PraiseCard.TouchStart | components/PraiseCard.tsx:68-71 | records the start position and starts swiping |
| Card.PraiseCard.TouchMove | components/PraiseCard.tsx:73-84 | ignored unless swiping; otherwise the offset becomes the dampened displacement |
| Card.PraiseCard.TouchEnd | components/PraiseCard.tsx:86-94 | the action is the release decision on the old offset; afterwards the card is not swiping, the offset is 0 and no overlay shows |
| Card.PraiseCard.BeginSpeak | components/PraiseCard.tsx:27-34 | a no-op while loading or playing; otherwise marks loading and hands over the spoken text |
| Card.PraiseCard.EndSpeak | components/PraiseCard.tsx:35-42 | whatever the narration did, both flags end false |
| Card.SpeakGuardScenario | components/PraiseCard.tsx:27-43 | a second press while loading is ignored; after settling, a press speaks the same text again |

## Findings

| source | as written | input that shows it | evidently intended | confidence | as-written member | corrected member |
|---|---|---|---|---|---|---|
| App.tsx:367 | choosing a category keeps the current page | 20 entries, one of them in category "C"; on page 2 of "All", choose "C": page 2 is past its single page, and the list area is empty | return to page 1, as choosing a language does (App.tsx:484-485) | medium, not executed | AppLogic.CategoryChangeStrandsPage | AppLogic.CategoryChangeShowsFirstPage |

`AppLogic.App.ChangeCategory` models the handler as written. `AppLogic.App.ChangeCategoryResettingPage` is the corrected handler.

## Left out

- The remote translation call (the SDK, prompt text, `JSON.parse`) is a foreign call. It is the oracle `answer`; a response that does not parse or is not an array is `RemoteFail`. The remote speech call belongs to `playPraiseSpeech`, below.
- `atob`, base64 decoding per section 4 of RFC 4648, is a platform call. `Gateway.DecodeBase64` starts from its output string.
- `playPraiseSpeech` (audio context, playback, the early return without an audio payload, error swallowing) is audio I/O and is not modelled. A narration's outcome is an input of `Card.PraiseCard.EndSpeak` only. `AppLogic.App.FinishNarration` needs none, because a played and a failed narration both advance the player (`App.tsx:189-195`).
- Gateway.Int16View: assumes the platform is little-endian, as the `Int16Array` view over the bytes does on the target platforms.
- Gateway.DecodeAudioData: requires between 1 and 32 channels. `createBuffer` rejects zero channels and may reject more than 32, the count every platform must support; the only caller (`services/geminiService.ts:159`) passes 1. The sample rate is not modelled: it only labels the buffer, and that caller passes 24000 Hz. The failure cases (an odd byte count, no whole frame) are thrown errors in the source and `None` here. `frameCount` is a float in the source. `createBuffer` truncates it, and writes past a typed array's end are dropped, so floor division gives the same buffer.
- Sleeping and timers are not modelled; each sleep's length is appended to `Service.delays`.
- `new Date().toDateString()` is browser state; the date string is an input of `AppLogic.DateSeed`.
- `localStorage`, the `document` attributes for theme, accent and font, `window.scrollTo`, and `navigator.share`/`clipboard` (`handleShare`) are browser I/O. A share is the returned `ShareAction`.
- The effect's `active` cancellation flag and overlapping asynchronous fetches or narrations are async interleaving. AppLogic.App.FinishNarration: approximates the flag by "the player is still active and playing". A stop followed by a restart during one narration is therefore not captured.
- AppLogic.Lower: lower-cases ASCII letters only; JavaScript's Unicode case mapping is not modelled.
- Page numbers, page sizes and retry budgets are integers. Non-integer JavaScript numbers are not modelled.
- The static list, `LANGUAGES` and `CATEGORIES` are parameters, since their contents are data.
- AppLogic.SelectedLanguage: requires a non-empty language list (and so does AppLogic.App.PrepareWorshipItem), because the fallback to the first language assumes one exists.
- AppLogic.DailyPraise: requires a non-empty list. With an empty list the source reads `undefined.id` and throws.
- The intermediate `loading` and `playerLoadingItem` values during an await are not modelled; only the values after a step are.
- `isCategoryModalOpen` is set, but nothing in the rendered tree reads it. It is kept as state.
- All rendering, CSS class selection, `LanguageSelector` and `MobileNav` are presentation. The theme, accent, font-size and font-family settings only persist and style.
- Floating point: `/32768`, `*0.2` and the opacity division are exact `real` arithmetic.

=== FILE: app.dfy ===
/**
 * The state rules of the application shell: favourites, pagination, the verse
 * of the day, what the list area displays, tab routing, the data-loading
 * guard and the sequential worship player.
 */
module AppLogic {
  import opened Types
  import opened Gateway

  const PAGE_SIZE: int := 10

  datatype Tab = Home | Favorites | Categories | Languages | Info

  // ------------------------------------------------------------------
  // Favourites, keyed on the displayed text
  // ------------------------------------------------------------------

  /** Some entry of `list` has this displayed text. */
  predicate HasText(list: seq<PraiseItem>, text: string)
  {
    exists i :: 0 <= i < |list| && list[i].originalText == text
  }

  /** `list.filter(f => f.originalText !== text)` */
  function WithoutText(list: seq<PraiseItem>, text: string): (r: seq<PraiseItem>)
    ensures |r| <= |list|
  {
    if list == [] then []
    else (if list[0].originalText == text then [] else [list[0]]) + WithoutText(list[1..], text)
  }

  /** Removal drops every entry with the text and keeps every other one as often as it occurred. */
  lemma {:induction false} WithoutTextCounts(list: seq<PraiseItem>, text: string)
    ensures !HasText(WithoutText(list, text), text)
    ensures forall x :: multiset(WithoutText(list, text))[x] ==
                        if x.originalText == text then 0 else multiset(list)[x]
  {
    if list != [] {
      assert list == [list[0]] + list[1..];
      WithoutTextCounts(list[1..], text);
      var rest := WithoutText(list[1..], text);
      var r := WithoutText(list, text);
      if list[0].originalText == text {
        assert r == rest;
      } else {
        assert r == [list[0]] + rest;
      }
    }
  }

  /** Removing a text nobody has changes nothing. */
  lemma {:induction false} WithoutAbsentText(list: seq<PraiseItem>, text: string)
    requires !HasText(list, text)
    ensures WithoutText(list, text) == list
  {
    if list != [] {
      assert !HasText(list[1..], text);
      WithoutAbsentText(list[1..], text);
      assert list == [list[0]] + list[1..];
    }
  }

  /** Removal keeps the order of the survivors: it distributes over concatenation. */
  lemma {:induction false} WithoutTextAppend(a: seq<PraiseItem>, b: seq<PraiseItem>, text: string)
    ensures WithoutText(a + b, text) == WithoutText(a, text) + WithoutText(b, text)
  {
    if a == [] {
      assert a + b == b;
    } else {
      var head := if a[0].originalText == text then [] else [a[0]];
      assert (a + b)[0] == a[0];
      assert (a + b)[1..] == a[1..] + b;
      assert WithoutText(a + b, text) == head + WithoutText(a[1..] + b, text);
      WithoutTextAppend(a[1..], b, text);
    }
  }

  /** The favourites updater: remove every entry with the praise's text, or else append the praise. */
  function ToggleFavorite(favorites: seq<PraiseItem>, praise: PraiseItem): (r: seq<PraiseItem>)
    ensures HasText(favorites, praise.originalText) ==> r == WithoutText(favorites, praise.originalText)
    ensures !HasText(favorites, praise.originalText) ==> r == favorites + [praise]
  {
    if HasText(favorites, praise.originalText) then WithoutText(favorites, praise.originalText)
    else favorites + [praise]
  }

  /** The heart shown on a card is the negation of what it showed before the toggle. */
  lemma ToggleFlipsFavorite(favorites: seq<PraiseItem>, praise: PraiseItem)
    ensures HasText(ToggleFavorite(favorites, praise), praise.originalText) ==
            !HasText(favorites, praise.originalText)
  {
    if HasText(favorites, praise.originalText) {
      WithoutTextCounts(favorites, praise.originalText);
    } else {
      var r := ToggleFavorite(favorites, praise);
      assert r[|r| - 1] == praise;
    }
  }

  /** Toggling a praise that is not a favourite twice restores the list. */
  lemma ToggleTwiceRestores(favorites: seq<PraiseItem>, praise: PraiseItem)
    requires !HasText(favorites, praise.originalText)
    ensures ToggleFavorite(ToggleFavorite(favorites, praise), praise) == favorites
  {
    var t := praise.originalText;
    var once := favorites + [praise];
    assert once[|once| - 1] == praise;
    WithoutTextAppend(favorites, [praise], t);
    WithoutAbsentText(favorites, t);
    assert WithoutText([praise], t) == [];
  }

  // ------------------------------------------------------------------
  // Pagination
  // ------------------------------------------------------------------

  /** `filteredCount`: the length of the list for "All", otherwise the number of entries of the category. */
  function FilteredCount(list: seq<RawPraise>, category: string): (n: nat)
    ensures n == |Filtered(list, category)|
  {
    if category == ALL then |list| else |KeepCategory(list, category)|
  }

  /** `TOTAL_PAGES = max(1, ceil(count / PAGE_SIZE))`: the fewest pages, at least one, that hold `count` items. */
  function TotalPages(count: nat): (t: int)
    ensures t >= 1
    ensures count <= t * PAGE_SIZE
    ensures t == 1 || (t - 1) * PAGE_SIZE < count
  {
    var pages := (count + PAGE_SIZE - 1) / PAGE_SIZE;
    if pages < 1 then 1 else pages
  }

  /** Every page up to the last one has items (when there are any), and the page after it has none. */
  lemma PagesCoverTheView(list: seq<RawPraise>, category: string, page: int)
    requires 1 <= page
    ensures var total := TotalPages(FilteredCount(list, category));
      && (page <= total && FilteredCount(list, category) > 0 ==> Batch(list, category, page, PAGE_SIZE) != [])
      && (page > total ==> Batch(list, category, page, PAGE_SIZE) == [])
  {
    BatchIsWindow(list, category, page, PAGE_SIZE);
    var total := TotalPages(FilteredCount(list, category));
    if page > total {
      assert (page - 1) * PAGE_SIZE >= total * PAGE_SIZE;
    }
  }

  /** The "previous" button's updater. */
  function PrevPage(p: int): (r: int)
    ensures r >= 1 && r <= (if p > 1 then p else 1)
    ensures p > 1 ==> r == p - 1
  {
    if p - 1 > 1 then p - 1 else 1
  }

  /** The "next" button's updater: one page on, but never past the last page. */
  function NextPage(p: int, total: int): (r: int)
    ensures r <= total && r <= p + 1
    ensures p < total ==> r == p + 1
    ensures p >= total ==> r == total
  {
    if total < p + 1 then total else p + 1
  }

  /** Both buttons keep a page that is in range in range. */
  lemma NavigationStaysInRange(p: int, total: int)
    requires 1 <= p <= total
    ensures 1 <= PrevPage(p) <= total && 1 <= NextPage(p, total) <= total
  {
  }

  /**
   * Choosing a category as written keeps the page number
   * (`setSelectedCategory(cat)` with no page update).
   */
  function PageAfterCategoryAsWritten(page: int): (r: int)
    ensures r == page
  {
    page
  }

  /**
   * With the page kept, a page that was valid for "All" can lie past the last
   * page of the chosen category, and the list area then stays empty: here 20
   * entries, page 2 of "All", then a category with a single entry.
   */
  lemma CategoryChangeStrandsPage()
    ensures var a := RawPraise(1, "a", "r", "C");
      var list := [a] + seq(19, i => RawPraise(i + 2, "b", "r", "D"));
      var page := PageAfterCategoryAsWritten(2);
      && 1 <= 2 <= TotalPages(FilteredCount(list, ALL))
      && page > TotalPages(FilteredCount(list, "C"))
      && Batch(list, "C", page, PAGE_SIZE) == []
  {
    var a := RawPraise(1, "a", "r", "C");
    var tail := seq(19, i => RawPraise(i + 2, "b", "r", "D"));
    var list := [a] + tail;
    assert KeepCategory(tail, "C") == [] by { KeepCategoryCounts(tail, "C"); }
    assert list[1..] == tail;
    assert KeepCategory(list, "C") == [a];
    PagesCoverTheView(list, "C", 2);
  }

  /** Choosing a category returns to the first page, as choosing a language does. */
  function PageAfterCategoryChange(page: int): (r: int)
    ensures r == 1
  {
    1
  }

  /**
   * With the corrected rule a category change always lands on a page in range,
   * and that page shows the chosen category's first entries whenever it has any.
   */
  lemma CategoryChangeShowsFirstPage(list: seq<RawPraise>, category: string, page: int)
    ensures var p := PageAfterCategoryChange(page);
      && 1 <= p <= TotalPages(FilteredCount(list, category))
      && (FilteredCount(list, category) > 0 ==>
            Batch(list, category, p, PAGE_SIZE) != [] &&
            Batch(list, category, p, PAGE_SIZE)[0] == Filtered(list, category)[0])
  {
    PagesCoverTheView(list, category, 1);
    BatchIsWindow(list, category, 1, PAGE_SIZE);
  }

  // ------------------------------------------------------------------
  // Verse of the day
  // ------------------------------------------------------------------

  /** The sum of the character codes of a string. */
  function CodeSum(s: string): (n: nat)
  {
    if s == [] then 0 else CodeSum(s[..|s| - 1]) + s[|s| - 1] as int
  }

  /** The seed loop over the date string. */
  method DateSeed(date: string) returns (seed: int)
    ensures seed == CodeSum(date)
  {
    seed := 0;
    for i := 0 to |date|
      invariant seed == CodeSum(date[..i])
    {
      assert date[..i + 1][..i] == date[..i];
      seed := seed + date[i] as int;
    }
    assert date[..|date|] == date;
  }

  /** JavaScript's integer quotient truncated toward zero, `Math.trunc(a / b)`. */
  function JsQuot(a: int, b: int): int
    requires b != 0
  {
    var m := if b > 0 then b else -b;
    var q := if a >= 0 then a / m else -((-a) / m);
    if b > 0 then q else -q
  }

  /**
   * JavaScript's `%`: what is left of the dividend after taking out the
   * quotient truncated toward zero, so it has the sign of the dividend.
   */
  function JsRem(a: int, b: int): (r: int)
    requires b != 0
    ensures a == b * JsQuot(a, b) + r
    ensures a >= 0 ==> 0 <= r < (if b > 0 then b else -b)
    ensures a < 0 ==> -(if b > 0 then b else -b) < r <= 0
  {
    var m := if b > 0 then b else -b;
    var n := if a >= 0 then a else -a;
    var q, r := n / m, n % m;
    assert n == m * q + r;
    assert b * JsQuot(a, b) == (if a >= 0 then m * q else -(m * q)) by {
      if b < 0 { assert b * JsQuot(a, b) == (-m) * (if a >= 0 then -q else q); }
    }
    if a >= 0 then r else -r
  }

  /** `(seed % N + offset + N) % N`: a position of the list whenever the shuffle count is non-negative. */
  function DailyIndex(seed: int, offset: int, n: int): (r: int)
    requires n > 0
    ensures offset >= 0 ==> 0 <= r < n
  {
    JsRem(JsRem(seed, n) + offset + n, n)
  }

  /** For a date's seed and a shuffle count the daily index is their sum reduced modulo the list length. */
  lemma DailyIndexClosedForm(seed: nat, offset: nat, n: int)
    requires n > 0
    ensures DailyIndex(seed, offset, n) == (seed + offset) % n
  {
    var q, s := seed / n, seed % n;
    assert seed == q * n + s;
    assert JsRem(seed, n) == s;
    var x := s + offset + n;
    var d, r := x / n, x % n;
    assert x == d * n + r;
    assert DailyIndex(seed, offset, n) == r;
    assert seed + offset == (d + q - 1) * n + r by {
      assert (d + q - 1) * n == d * n + q * n - n;
    }
    ModUnique(seed + offset, n, d + q - 1, r);
  }

  /** A shuffle moves the verse of the day to the next entry, wrapping at the end. */
  lemma ShuffleAdvancesByOne(seed: int, offset: int, n: int)
    requires n > 0 && seed >= 0 && offset >= 0
    ensures DailyIndex(seed, offset + 1, n) == (DailyIndex(seed, offset, n) + 1) % n
  {
    var b := seed % n + n;
    assert DailyIndex(seed, offset, n) == (b + offset) % n;
    assert DailyIndex(seed, offset + 1, n) == (b + offset + 1) % n;
    ModSucc(b + offset, n);
  }

  lemma MulMono(a: int, b: int, n: int)
    requires n > 0 && a < b
    ensures a * n + n <= b * n
    decreases b - a
  {
    assert (a + 1) * n == a * n + n;
    if a + 1 < b {
      MulMono(a + 1, b, n);
    }
  }

  lemma ModUnique(x: int, n: int, q: int, r: int)
    requires n > 0 && 0 <= r < n && x == q * n + r
    ensures x % n == r && x / n == q
  {
    var q', r' := x / n, x % n;
    assert x == q' * n + r';
    if q' > q { MulMono(q, q', n); }
    else if q' < q { MulMono(q', q, n); }
  }

  lemma ModSucc(a: nat, n: int)
    requires n > 0
    ensures (a + 1) % n == (a % n + 1) % n
  {
    var q, r := a / n, a % n;
    if r + 1 < n {
      ModUnique(a + 1, n, q, r + 1);
      ModUnique(r + 1, n, 0, r + 1);
    } else {
      ModUnique(a + 1, n, q + 1, 0);
      ModUnique(r + 1, n, 1, 0);
    }
  }

  /** The verse of the day for a date and a shuffle count, in its untranslated display form: the entry at the date's code sum plus the count, modulo the list length. */
  function DailyPraise(list: seq<RawPraise>, date: string, offset: int): (item: PraiseItem)
    requires |list| > 0 && offset >= 0
    ensures item == Untranslated(list[(CodeSum(date) + offset) % |list|])
  {
    DailyIndexClosedForm(CodeSum(date), offset, |list|);
    Untranslated(list[DailyIndex(CodeSum(date), offset, |list|)])
  }

  /** Each shuffle shows the entry after the one shown before, wrapping from the last to the first. */
  lemma ShuffleShowsNextVerse(list: seq<RawPraise>, date: string, offset: int)
    requires |list| > 0 && offset >= 0
    ensures var i := DailyIndex(CodeSum(date), offset, |list|);
      DailyPraise(list, date, offset + 1) == Untranslated(list[if i + 1 < |list| then i + 1 else 0])
  {
    var i := DailyIndex(CodeSum(date), offset, |list|);
    ShuffleAdvancesByOne(CodeSum(date), offset, |list|);
    if i + 1 == |list| {
      ModUnique(i + 1, |list|, 1, 0);
    } else {
      ModUnique(i + 1, |list|, 0, i + 1);
    }
  }

  // ------------------------------------------------------------------
  // What the list area displays
  // ------------------------------------------------------------------

  /** `toLowerCase` on the ASCII letters. */
  function LowerChar(c: char): char
  {
    if 'A' <= c <= 'Z' then (c as int - 'A' as int + 'a' as int) as char else c
  }

  function Lower(s: string): (r: string)
    ensures |r| == |s|
    ensures forall i :: 0 <= i < |s| ==> r[i] == LowerChar(s[i])
  {
    seq(|s|, i requires 0 <= i < |s| => LowerChar(s[i]))
  }

  /** `q` occurs in `s` starting at position `i`. */
  predicate OccursAt(s: string, q: string, i: int)
  {
    0 <= i && i + |q| <= |s| && s[i..i + |q|] == q
  }

  /** `s.includes(q)` */
  predicate Contains(s: string, q: string)
  {
    exists i :: 0 <= i <= |s| && OccursAt(s, q, i)
  }

  /** The search rule: the lower-cased query occurs in the lower-cased text or reference. */
  predicate Matches(p: RawPraise, query: string)
  {
    Contains(Lower(p.text), Lower(query)) || Contains(Lower(p.ref), Lower(query))
  }

  /** The entries of the list that match the query, in list order. */
  function SearchHits(list: seq<RawPraise>, query: string): (r: seq<RawPraise>)
    ensures |r| <= |list|
  {
    if list == [] then []
    else (if Matches(list[0], query) then [list[0]] else []) + SearchHits(list[1..], query)
  }

  /** The hits are exactly the matching entries, each as often as it occurs in the list. */
  lemma {:induction false} SearchHitsCounts(list: seq<RawPraise>, query: string)
    ensures forall p :: multiset(SearchHits(list, query))[p] ==
                        if Matches(p, query) then multiset(list)[p] else 0
  {
    if list != [] {
      assert list == [list[0]] + list[1..];
      SearchHitsCounts(list[1..], query);
    }
  }

  /** The hits keep list order: the search distributes over concatenation. */
  lemma {:induction false} SearchHitsAppend(a: seq<RawPraise>, b: seq<RawPraise>, query: string)
    ensures SearchHits(a + b, query) == SearchHits(a, query) + SearchHits(b, query)
  {
    if a == [] {
      assert a + b == b;
    } else {
      var head := if Matches(a[0], query) then [a[0]] else [];
      assert (a + b)[0] == a[0];
      assert (a + b)[1..] == a[1..] + b;
      assert SearchHits(a + b, query) == head + SearchHits(a[1..] + b, query);
      SearchHitsAppend(a[1..], b, query);
    }
  }

  /** `displayedPraises`: favourites on their tab, else search results for a query, else the loaded page. */
  function DisplayedPraises(tab: Tab, favorites: seq<PraiseItem>, query: string,
                            list: seq<RawPraise>, praises: seq<PraiseItem>): seq<PraiseItem>
  {
    if tab == Favorites then favorites
    else if query != "" then Passthrough(SearchHits(list, query))
    else praises
  }

  /**
   * The favourites tab wins over a query; a query wins over the loaded page,
   * and then each shown item is an untranslated matching entry, and every
   * matching entry is shown.
   */
  lemma DisplayPrecedence(tab: Tab, favorites: seq<PraiseItem>, query: string,
                          list: seq<RawPraise>, praises: seq<PraiseItem>)
    ensures var r := DisplayedPraises(tab, favorites, query, list, praises);
      && (tab == Favorites ==> r == favorites)
      && (tab != Favorites && query == "" ==> r == praises)
      && (tab != Favorites && query != "" ==>
            && (forall i :: 0 <= i < |r| ==>
                  r[i].originalText == r[i].translation &&
                  exists p :: p in list && Matches(p, query) && r[i] == Untranslated(p))
            && (forall p :: p in list && Matches(p, query) ==> Untranslated(p) in r))
  {
    if tab != Favorites && query != "" {
      var hits := SearchHits(list, query);
      var r := Passthrough(hits);
      SearchHitsCounts(list, query);
      forall i | 0 <= i < |r|
        ensures exists p :: p in list && Matches(p, query) && r[i] == Untranslated(p)
      {
        assert multiset(hits)[hits[i]] > 0;
      }
      forall p | p in list && Matches(p, query) ensures Untranslated(p) in r {
        assert multiset(list)[p] > 0;
        assert p in multiset(hits);
        var k :| 0 <= k < |hits| && hits[k] == p;
        assert r[k] == Untranslated(p);
      }
    }
  }

  // ------------------------------------------------------------------
  // The worship player
  // ------------------------------------------------------------------

  /** The page of the "All" view, of ten entries, that the player fetches for list position `i`. */
  function WorshipPage(i: nat): (page: int)
    ensures page >= 1 && (page - 1) * PAGE_SIZE <= i < page * PAGE_SIZE
  {
    i / 10 + 1
  }

  /** That page holds the entry at position `i`, at offset `i % 10`. */
  lemma WorshipPageHoldsIndex(list: seq<RawPraise>, i: nat)
    requires i < |list|
    ensures var b := Batch(list, ALL, WorshipPage(i), PAGE_SIZE);
      i % 10 < |b| && b[i % 10] == list[i]
  {
    BatchIsWindow(list, ALL, WorshipPage(i), PAGE_SIZE);
  }

  /**
   * The text the player narrates: the text of the first translated item with
   * the entry's id, or the English text when there is no such item or its
   * text is empty.
   */
  function WorshipText(translated: seq<PraiseItem>, raw: RawPraise): (t: string)
    ensures forall i :: FirstWith(translated, ItemId, raw.id, i) ==>
      t == if translated[i].originalText != "" then translated[i].originalText else raw.text
    ensures (forall i :: 0 <= i < |translated| ==> translated[i].id != raw.id) ==> t == raw.text
  {
    var found := FindFirst(translated, ItemId, raw.id);
    if found.Some? && found.value.originalText != "" then found.value.originalText else raw.text
  }

  /** The language the interface works in: the first one with the code, or the first one of all when none has it. */
  function SelectedLanguage(languages: seq<Language>, code: string): (l: Language)
    requires |languages| > 0
    ensures forall i :: FirstWith(languages, LanguageCode, code, i) ==> l == languages[i]
    ensures (forall i :: 0 <= i < |languages| ==> languages[i].code != code) ==> l == languages[0]
  {
    var found := FindFirst(languages, LanguageCode, code);
    if found.Some? then found.value else languages[0]
  }

  /** What one round of the player does before narration. */
  datatype WorshipStep =
    | Idle                    // the player is not running
    | Stopped                 // no entry at the index: the player was stopped
    | Stalled                 // the translated batch could not be fetched; the rejection is not caught
    | Narrate(text: string, language: string)   // hand this text and language name to speech synthesis

  // ------------------------------------------------------------------
  // The application state
  // ------------------------------------------------------------------

  class App {
    const list: seq<RawPraise>
    var activeTab: Tab
    var langModalOpen: bool
    var categoryModalOpen: bool
    var selectedLanguage: string
    var selectedCategory: string
    var praises: seq<PraiseItem>
    var favorites: seq<PraiseItem>
    var page: int
    var loading: bool
    var searchQuery: string
    var showSearch: bool
    var playerActive: bool
    var playerLanguage: string
    var playerIndex: int
    var playerPlaying: bool
    var playerLoadingItem: bool
    var heroOffset: int

    /**
     * Pages are counted from 1 and the counters are non-negative. The page is
     * not kept below the last page of the selected view: choosing a category
     * can leave it past the end (see CategoryChangeStrandsPage).
     */
    ghost predicate Valid()
      reads this
    {
      && page >= 1
      && heroOffset >= 0
      && playerIndex >= 0
    }

    constructor (list: seq<RawPraise>)
      ensures this.list == list && Valid()
      ensures activeTab == Home && !langModalOpen && !categoryModalOpen
      ensures selectedLanguage == SOURCE_LANGUAGE && selectedCategory == ALL
      ensures praises == [] && favorites == [] && page == 1 && !loading
      ensures searchQuery == "" && !showSearch
      ensures !playerActive && playerLanguage == SOURCE_LANGUAGE && playerIndex == 0
      ensures !playerPlaying && !playerLoadingItem && heroOffset == 0
    {
      this.list := list;
      activeTab := Home;
      langModalOpen, categoryModalOpen := false, false;
      selectedLanguage, selectedCategory := SOURCE_LANGUAGE, ALL;
      praises, favorites := [], [];
      page, loading := 1, false;
      searchQuery, showSearch := "", false;
      playerActive, playerLanguage, playerIndex := false, SOURCE_LANGUAGE, 0;
      playerPlaying, playerLoadingItem := false, false;
      heroOffset := 0;
    }

    /** The list area's content. */
    function Displayed(): seq<PraiseItem>
      reads this
    {
      DisplayedPraises(activeTab, favorites, searchQuery, list, praises)
    }

    /** The heart on the card of `praise`. */
    predicate IsFavorite(praise: PraiseItem)
      reads this
    {
      HasText(favorites, praise.originalText)
    }

    method ToggleFavoriteOf(praise: PraiseItem)
      requires Valid()
      modifies this`favorites
      ensures Valid()
      ensures favorites == ToggleFavorite(old(favorites), praise)
      ensures IsFavorite(praise) == !old(IsFavorite(praise))
      ensures activeTab == Favorites ==> Displayed() == favorites
    {
      favorites := ToggleFavorite(favorites, praise);
      ToggleFlipsFavorite(old(favorites), praise);
    }

    /** Navigation tab routing: the two modal tabs only open their modal. */
    method HandleTabChange(tab: Tab)
      requires Valid()
      modifies this`langModalOpen, this`categoryModalOpen, this`activeTab, this`showSearch
      ensures Valid()
      ensures tab == Languages ==>
        langModalOpen && categoryModalOpen == old(categoryModalOpen) &&
        activeTab == old(activeTab) && showSearch == old(showSearch)
      ensures tab == Categories ==>
        categoryModalOpen && langModalOpen == old(langModalOpen) &&
        activeTab == old(activeTab) && showSearch == old(showSearch)
      ensures tab != Languages && tab != Categories ==>
        activeTab == tab && langModalOpen == old(langModalOpen) &&
        categoryModalOpen == old(categoryModalOpen) &&
        showSearch == (if tab == Home then old(showSearch) else false)
    {
      if tab == Languages {
        langModalOpen := true;
      } else if tab == Categories {
        categoryModalOpen := true;
      } else {
        activeTab := tab;
        if tab != Home {
          showSearch := false;
        }
      }
    }

    method PrevPageClicked()
      requires Valid()
      modifies this`page
      ensures Valid() && page == PrevPage(old(page))
    {
      page := PrevPage(page);
    }

    /** From a page past the end, as a category change can leave it, "next" goes back to the last page. */
    method NextPageClicked()
      requires Valid()
      modifies this`page
      ensures Valid() && page == NextPage(old(page), TotalPages(FilteredCount(list, selectedCategory)))
      ensures page <= TotalPages(FilteredCount(list, selectedCategory))
    {
      page := NextPage(page, TotalPages(FilteredCount(list, selectedCategory)));
    }

    /** Choosing a language returns to the first page. */
    method ChangeLanguage(lang: string)
      requires Valid()
      modifies this`selectedLanguage, this`page
      ensures Valid() && selectedLanguage == lang && page == 1
    {
      selectedLanguage := lang;
      page := 1;
    }

    /** Choosing a category as written: only the category changes, the page is kept. */
    method ChangeCategory(category: string)
      requires Valid()
      modifies this`selectedCategory
      ensures Valid()
      ensures selectedCategory == category && page == PageAfterCategoryAsWritten(old(page))
    {
      selectedCategory := category;
    }

    /** The corrected category handler: the page returns to the first one, which is always in range. */
    method ChangeCategoryResettingPage(category: string)
      requires Valid()
      modifies this`selectedCategory, this`page
      ensures Valid() && selectedCategory == category && page == PageAfterCategoryChange(old(page))
      ensures page <= TotalPages(FilteredCount(list, selectedCategory))
    {
      selectedCategory := category;
      page := PageAfterCategoryChange(page);
    }

    method SetSearchQuery(query: string)
      requires Valid()
      modifies this`searchQuery
      ensures Valid()
      ensures searchQuery == query
      ensures activeTab != Favorites && query != "" ==> Displayed() == Passthrough(SearchHits(list, query))
    {
      searchQuery := query;
    }

    method ToggleSearch()
      requires Valid()
      modifies this`showSearch
      ensures Valid()
      ensures showSearch == !old(showSearch)
    {
      showSearch := !showSearch;
    }

    /** "Shuffle praise": only the offset moves, by one. */
    method Shuffle()
      requires Valid()
      modifies this`heroOffset
      ensures Valid() && heroOffset == old(heroOffset) + 1
    {
      heroOffset := heroOffset + 1;
    }

    /**
     * `loadPraises` for the current page, language and category. Nothing
     * happens on the favourites and about tabs or while a query is set; a
     * thrown fetch leaves an empty page.
     */
    method LoadPraises(service: Service, answer: nat -> Response)
      requires service.list == list
      requires Valid()
      modifies this`praises, this`loading, service
      ensures Valid()
      ensures activeTab == Favorites || activeTab == Info || searchQuery != "" ==>
        praises == old(praises) && loading == old(loading) && service.Current() == old(service.Current())
      ensures !(activeTab == Favorites || activeTab == Info || searchQuery != "") ==>
        var (r, s') := FetchSpec(list, old(service.Current()), page, selectedLanguage, selectedCategory,
                                 PAGE_SIZE, DEFAULT_RETRIES, answer);
        && service.Current() == s'
        && praises == (if r.Delivered? then r.items else [])
        && !loading
    {
      if activeTab == Favorites || activeTab == Info || searchQuery != "" {
        return;
      }
      loading := true;
      var r := service.FetchPraisesBatch(page, selectedLanguage, selectedCategory, PAGE_SIZE, DEFAULT_RETRIES, answer);
      if r.Delivered? {
        praises := r.items;
      } else {
        praises := [];
      }
      loading := false;
    }

    /** Starting the player: index 0, running and playing, home tab. */
    method StartWorship(lang: string)
      requires Valid()
      modifies this`playerLanguage, this`playerIndex, this`playerActive, this`playerPlaying, this`activeTab
      ensures Valid()
      ensures playerLanguage == lang && playerIndex == 0 && playerActive && playerPlaying && activeTab == Home
    {
      playerLanguage := lang;
      playerIndex := 0;
      playerActive := true;
      playerPlaying := true;
      activeTab := Home;
    }

    method StopWorship()
      requires Valid()
      modifies this`playerActive, this`playerPlaying
      ensures Valid()
      ensures !playerActive && !playerPlaying
    {
      playerActive := false;
      playerPlaying := false;
    }

    /** The pause button. */
    method TogglePlaying()
      requires Valid()
      modifies this`playerPlaying
      ensures Valid()
      ensures playerPlaying == !old(playerPlaying)
    {
      playerPlaying := !playerPlaying;
    }

    /**
     * One round of `playSequentially` up to the narration: an index with no
     * entry stops the player; in English the entry's own text is spoken,
     * otherwise its translation from the "All" page that holds it.
     */
    method PrepareWorshipItem(service: Service, languages: seq<Language>, answer: nat -> Response) returns (step: WorshipStep)
      requires service.list == list && |languages| > 0
      requires Valid()
      modifies this`playerActive, this`playerPlaying, this`playerLoadingItem, service
      ensures Valid()
      ensures playerIndex == old(playerIndex)
      ensures !old(playerActive) || !old(playerPlaying) ==>
        step == Idle && playerActive == old(playerActive) && playerPlaying == old(playerPlaying) &&
        playerLoadingItem == old(playerLoadingItem) && service.Current() == old(service.Current())
      ensures old(playerActive) && old(playerPlaying) && !(0 <= playerIndex < |list|) ==>
        step == Stopped && !playerActive && !playerPlaying &&
        playerLoadingItem == old(playerLoadingItem) && service.Current() == old(service.Current())
      ensures old(playerActive) && old(playerPlaying) && 0 <= playerIndex < |list| ==>
        && playerActive && playerPlaying
        && (playerLanguage == SOURCE_LANGUAGE ==>
              step == Narrate(SpokenText(list[playerIndex].text, list[playerIndex].ref),
                              SelectedLanguage(languages, playerLanguage).name) &&
              !playerLoadingItem && service.Current() == old(service.Current()))
        && (playerLanguage != SOURCE_LANGUAGE ==>
              var (r, s') := FetchSpec(list, old(service.Current()), WorshipPage(playerIndex), playerLanguage,
                                       ALL, PAGE_SIZE, DEFAULT_RETRIES, answer);
              && service.Current() == s'
              && (r.Thrown? ==> step == Stalled && playerLoadingItem)
              && (r.Delivered? ==>
                    step == Narrate(SpokenText(WorshipText(r.items, list[playerIndex]), list[playerIndex].ref),
                                    SelectedLanguage(languages, playerLanguage).name) &&
                    !playerLoadingItem))
    {
      if !playerActive || !playerPlaying {
        return Idle;
      }
      if !(0 <= playerIndex < |list|) {
        StopWorship();
        return Stopped;
      }
      var language := SelectedLanguage(languages, playerLanguage);
      var raw := list[playerIndex];
      playerLoadingItem := true;
      var text := raw.text;
      if playerLanguage != SOURCE_LANGUAGE {
        var r := service.FetchPraisesBatch(WorshipPage(playerIndex), playerLanguage, ALL, PAGE_SIZE, DEFAULT_RETRIES, answer);
        if r.Thrown? {
          return Stalled;
        }
        text := WorshipText(r.items, raw);
      }
      playerLoadingItem := false;
      return Narrate(SpokenText(text, raw.ref), language.name);
    }

    /**
     * After a narration settles, whether it succeeded or threw, the player
     * moves to the next entry, wrapping at the end, unless it was stopped
     * or paused meanwhile.
     */
    method FinishNarration()
      requires Valid() && |list| > 0
      modifies this`playerIndex
      ensures Valid()
      ensures playerActive && playerPlaying ==> playerIndex == (old(playerIndex) + 1) % |list|
      ensures !(playerActive && playerPlaying) ==> playerIndex == old(playerIndex)
      ensures playerActive && playerPlaying ==> playerIndex < |list|
    {
      if playerActive && playerPlaying {
        playerIndex := (playerIndex + 1) % |list|;
      }
    }
  }
}

=== FILE: card.dfy ===
/**
 * The praise card: the horizontal swipe gesture (dampened past a threshold,
 * deciding on release between favouriting and sharing), the overlay that
 * previews the decision, and the guard that keeps the speak button from
 * starting a second narration.
 *
 * Positions and offsets are exact reals.
 */
module Card {
  import opened Types

  const THRESHOLD: real := 100.0
  const DAMPING: real := 0.2
  const OVERLAY_ALPHA: real := 0.8
  const DEFAULT_LANGUAGE_NAME: string := "English"

  function Abs(x: real): real
  {
    if x < 0.0 then -x else x
  }

  /** The drag distance shown for a finger displacement: linear up to the threshold, a fifth of the excess past it. */
  function Dampen(diff: real): (d: real)
    ensures Abs(diff) <= THRESHOLD ==> d == diff
    ensures Abs(diff) > THRESHOLD ==> Abs(d) == THRESHOLD + (Abs(diff) - THRESHOLD) * DAMPING
    ensures (d > 0.0 <==> diff > 0.0) && (d < 0.0 <==> diff < 0.0)
  {
    if Abs(diff) > THRESHOLD then
      (if diff > 0.0 then THRESHOLD + (diff - THRESHOLD) * DAMPING
       else -THRESHOLD + (diff + THRESHOLD) * DAMPING)
    else diff
  }

  /** The card never moves further than the finger. */
  lemma DampenNeverExceeds(diff: real)
    ensures Abs(Dampen(diff)) <= Abs(diff)
  {
  }

  /** Dampening is strictly increasing. */
  lemma DampenMonotone(x: real, y: real)
    requires x < y
    ensures Dampen(x) < Dampen(y)
  {
  }

  /** Dampening has no jumps: two displacements move the card at most as far apart as they are. */
  lemma DampenContinuous(x: real, y: real)
    ensures Abs(Dampen(x) - Dampen(y)) <= Abs(x - y)
  {
  }

  /** The shown offset passes the threshold exactly when the finger did. */
  lemma DampenKeepsThreshold(diff: real)
    ensures Dampen(diff) > THRESHOLD <==> diff > THRESHOLD
    ensures Dampen(diff) < -THRESHOLD <==> diff < -THRESHOLD
  {
  }

  /** What a release does. */
  datatype SwipeAction = FavoriteAction | ShareAction | NoAction

  /** The release rule on the shown offset. */
  function SwipeDecision(offset: real): (a: SwipeAction)
    ensures a == FavoriteAction <==> offset > THRESHOLD
    ensures a == ShareAction <==> offset < -THRESHOLD
  {
    if offset > THRESHOLD then FavoriteAction
    else if offset < -THRESHOLD then ShareAction
    else NoAction
  }

  /** Start at `x0`, last move at `x1`, release: the outcome depends only on the raw displacement. */
  lemma SwipeOutcome(x0: real, x1: real)
    ensures SwipeDecision(Dampen(x1 - x0)) ==
      if x1 - x0 > THRESHOLD then FavoriteAction
      else if x1 - x0 < -THRESHOLD then ShareAction
      else NoAction
  {
    DampenKeepsThreshold(x1 - x0);
  }

  /** The preview behind the card: a heart to the right, a share icon to the left, nothing at rest. */
  datatype Overlay = NoOverlay | FavoriteOverlay(alpha: real) | ShareOverlay(alpha: real)

  /** `min(|offset| / threshold, 1)` */
  function OverlayOpacity(offset: real): (o: real)
    ensures 0.0 <= o <= 1.0
    ensures Abs(offset) >= THRESHOLD ==> o == 1.0
    ensures Abs(offset) < THRESHOLD ==> o * THRESHOLD == Abs(offset)
  {
    var ratio := Abs(offset) / THRESHOLD;
    if ratio < 1.0 then ratio else 1.0
  }

  /** `getActionOverlay`: which preview is shown, and how opaque it is. */
  function ActionOverlay(offset: real): (v: Overlay)
    ensures v == NoOverlay <==> offset == 0.0
    ensures offset > 0.0 ==> v == FavoriteOverlay(OverlayOpacity(offset) * OVERLAY_ALPHA)
    ensures offset < 0.0 ==> v == ShareOverlay(OverlayOpacity(offset) * OVERLAY_ALPHA)
    ensures v != NoOverlay ==> 0.0 < v.alpha <= OVERLAY_ALPHA
  {
    if offset == 0.0 then NoOverlay
    else if offset > 0.0 then FavoriteOverlay(OverlayOpacity(offset) * OVERLAY_ALPHA)
    else ShareOverlay(OverlayOpacity(offset) * OVERLAY_ALPHA)
  }

  /** The preview is the release decision's forecast: full opacity whenever a release would act. */
  lemma OverlayForecastsDecision(offset: real)
    ensures SwipeDecision(offset) == FavoriteAction ==> ActionOverlay(offset) == FavoriteOverlay(OVERLAY_ALPHA)
    ensures SwipeDecision(offset) == ShareAction ==> ActionOverlay(offset) == ShareOverlay(OVERLAY_ALPHA)
  {
  }

  /** The language name the card asks the speech service for: that of the first language with the code, English when there is none or its name is empty. */
  function LanguageName(languages: seq<Language>, code: string): (name: string)
    ensures forall i :: FirstWith(languages, LanguageCode, code, i) ==>
      name == if languages[i].name != "" then languages[i].name else DEFAULT_LANGUAGE_NAME
    ensures (forall i :: 0 <= i < |languages| ==> languages[i].code != code) ==> name == DEFAULT_LANGUAGE_NAME
  {
    var found := FindFirst(languages, LanguageCode, code);
    if found.Some? && found.value.name != "" then found.value.name else DEFAULT_LANGUAGE_NAME
  }

  /** The card of one praise: its gesture state and its speech flags. */
  class PraiseCard {
    const praise: PraiseItem
    var startX: real
    var isSwiping: bool
    var swipeOffset: real
    var isPlaying: bool
    var isBufferLoading: bool

    constructor (praise: PraiseItem)
      ensures this.praise == praise && startX == 0.0 && !isSwiping && swipeOffset == 0.0
      ensures !isPlaying && !isBufferLoading
    {
      this.praise := praise;
      startX, isSwiping, swipeOffset := 0.0, false, 0.0;
      isPlaying, isBufferLoading := false, false;
    }

    function CurrentOverlay(): Overlay
      reads this
    {
      ActionOverlay(swipeOffset)
    }

    method TouchStart(x: real)
      modifies this`startX, this`isSwiping
      ensures startX == x && isSwiping
    {
      startX := x;
      isSwiping := true;
    }

    /** Ignored unless a swipe is in progress; otherwise the card follows the dampened displacement. */
    method TouchMove(x: real)
      modifies this`swipeOffset
      ensures isSwiping ==> swipeOffset == Dampen(x - startX)
      ensures !isSwiping ==> swipeOffset == old(swipeOffset)
    {
      if !isSwiping {
        return;
      }
      var diff := x - startX;
      swipeOffset := Dampen(diff);
    }

    /** Release: decide on the shown offset, then the card springs back. */
    method TouchEnd() returns (action: SwipeAction)
      modifies this`isSwiping, this`swipeOffset
      ensures action == SwipeDecision(old(swipeOffset))
      ensures !isSwiping && swipeOffset == 0.0 && CurrentOverlay() == NoOverlay
    {
      isSwiping := false;
      action := SwipeDecision(swipeOffset);
      swipeOffset := 0.0;
    }

    /**
     * `handleSpeak` up to the narration: a no-op while a narration is loading
     * or playing; otherwise mark loading and hand over the spoken text.
     */
    method BeginSpeak() returns (text: Option<string>)
      modifies this`isBufferLoading
      ensures old(isPlaying) || old(isBufferLoading) ==> text == None && isBufferLoading == old(isBufferLoading)
      ensures !old(isPlaying) && !old(isBufferLoading) ==>
        text == Some(SpokenText(praise.originalText, praise.reference)) && isBufferLoading
    {
      if isPlaying || isBufferLoading {
        return None;
      }
      isBufferLoading := true;
      text := Some(SpokenText(praise.originalText, praise.reference));
    }

    /** The narration settled, played or failed: the `finally` clears both flags. */
    method EndSpeak(played: bool)
      modifies this`isPlaying, this`isBufferLoading
      ensures !isPlaying && !isBufferLoading
    {
      if played {
        isPlaying := true;
      }
      isBufferLoading := false;
      isPlaying := false;
    }
  }

  /** While a narration is loading, a second press is ignored; once it settles, a press starts one again. */
  method SpeakGuardScenario(praise: PraiseItem) returns (first: Option<string>, second: Option<string>, third: Option<string>)
    ensures first == Some(SpokenText(praise.originalText, praise.reference))
    ensures second == None
    ensures third == first
  {
    var card := new PraiseCard(praise);
    first := card.BeginSpeak();
    second := card.BeginSpeak();
    card.EndSpeak(true);
    third := card.BeginSpeak();
  }
}

=== FILE: gateway.dfy ===
/**
 * The batch fetch-and-cache gateway: page selection over the static list,
 * the English passthrough, memoisation of remote translations under a
 * composite key, and the bounded retry loop with linear back-off.
 *
 * The remote model call is an oracle: `answer(k)` is what the k-th attempt
 * of a call sees, either a failure (network error, unparsable text, a value
 * that is not an array) or the parsed array of records.
 */
module Gateway {
  import opened Types

  const DEFAULT_RETRIES: int := 3
  const BACKOFF_STEP_MS: int := 1000
  const FALLBACK_CATEGORY: string := "General"

  /** One object of the parsed remote response. */
  datatype Record = Record(id: int, translatedText: string, phonetic: Option<string>, ref: string)

  /** The outcome of one remote attempt. */
  datatype Response = RemoteFail | RemoteOk(parsed: seq<Record>)

  /** What a call of the gateway settles with: a list, or a rethrown failure. */
  datatype Fetched = Delivered(items: seq<PraiseItem>) | Thrown

  // ------------------------------------------------------------------
  // The cache key: language, category and the page number in decimal.
  // ------------------------------------------------------------------

  function DigitChar(d: nat): (c: char)
    requires d < 10
    ensures '0' <= c <= '9' && c as int - '0' as int == d
  {
    ('0' as int + d) as char
  }

  /** The decimal numeral of a natural number, most significant digit first, no leading zero. */
  function NatToDecimal(n: nat): (s: string)
    ensures |s| >= 1
    ensures forall i :: 0 <= i < |s| ==> '0' <= s[i] <= '9'
    decreases n
  {
    if n < 10 then [DigitChar(n)] else NatToDecimal(n / 10) + [DigitChar(n % 10)]
  }

  /** The value of a string of decimal digits. */
  function DecimalToNat(s: string): nat
    requires forall i :: 0 <= i < |s| ==> '0' <= s[i] <= '9'
  {
    if s == [] then 0
    else DecimalToNat(s[..|s| - 1]) * 10 + (s[|s| - 1] as int - '0' as int)
  }

  lemma {:induction false} DecimalRoundTrip(n: nat)
    ensures DecimalToNat(NatToDecimal(n)) == n
    decreases n
  {
    if n >= 10 {
      var s := NatToDecimal(n);
      assert s[..|s| - 1] == NatToDecimal(n / 10);
      DecimalRoundTrip(n / 10);
    }
  }

  /** How a JavaScript integer-valued number is written into a template string. */
  function NumberToString(x: int): (s: string)
  {
    if x < 0 then "-" + NatToDecimal(-x) else NatToDecimal(x)
  }

  /** Reads back what NumberToString writes. */
  function ParseNumber(s: string): int
  {
    if |s| > 0 && s[0] == '-' && (forall i :: 1 <= i < |s| ==> '0' <= s[i] <= '9') then -(DecimalToNat(s[1..]) as int)
    else if forall i :: 0 <= i < |s| ==> '0' <= s[i] <= '9' then DecimalToNat(s)
    else 0
  }

  lemma NumberRoundTrip(x: int)
    ensures ParseNumber(NumberToString(x)) == x
  {
    var s := NumberToString(x);
    if x < 0 {
      var d := NatToDecimal(-x);
      assert s[0] == '-' && s[1..] == d;
      assert forall i :: 1 <= i < |s| ==> s[i] == d[i - 1];
      DecimalRoundTrip(-x);
    } else {
      assert s == NatToDecimal(x);
      assert s[0] != '-';
      DecimalRoundTrip(x);
    }
  }

  /** The memoisation key `lang-category-page`. */
  function CacheKey(lang: string, category: string, page: int): (key: string)
    ensures |key| == |lang| + |category| + 2 + |NumberToString(page)|
    ensures key[..|lang|] == lang && key[|lang|] == '-'
    ensures key[|lang| + 1..|lang| + 1 + |category|] == category
    ensures key[|lang| + 1 + |category|] == '-'
    ensures key[|lang| + |category| + 2..] == NumberToString(page)
  {
    lang + "-" + category + "-" + NumberToString(page)
  }

  /** For one language and category, different pages never share a cache entry. */
  lemma CacheKeySeparatesPages(lang: string, category: string, p1: int, p2: int)
    ensures CacheKey(lang, category, p1) == CacheKey(lang, category, p2) <==> p1 == p2
  {
    if CacheKey(lang, category, p1) == CacheKey(lang, category, p2) {
      var n := |lang| + |category| + 2;
      assert NumberToString(p1) == CacheKey(lang, category, p1)[n..];
      assert NumberToString(p2) == CacheKey(lang, category, p2)[n..];
      NumberRoundTrip(p1);
      NumberRoundTrip(p2);
    }
  }

  // ------------------------------------------------------------------
  // Page selection
  // ------------------------------------------------------------------

  /** The entries of `list` whose category is `category`, in list order. */
  function KeepCategory(list: seq<RawPraise>, category: string): (r: seq<RawPraise>)
    ensures |r| <= |list|
  {
    if list == [] then []
    else (if list[0].category == category then [list[0]] else []) + KeepCategory(list[1..], category)
  }

  /** Each entry of the category is kept as often as it occurs; no other entry is kept. */
  lemma {:induction false} KeepCategoryCounts(list: seq<RawPraise>, category: string)
    ensures forall p :: multiset(KeepCategory(list, category))[p] ==
                        if p.category == category then multiset(list)[p] else 0
  {
    if list != [] {
      assert list == [list[0]] + list[1..];
      KeepCategoryCounts(list[1..], category);
    }
  }

  /** Filtering keeps the order of the list: it distributes over concatenation. */
  lemma {:induction false} KeepCategoryAppend(a: seq<RawPraise>, b: seq<RawPraise>, category: string)
    ensures KeepCategory(a + b, category) == KeepCategory(a, category) + KeepCategory(b, category)
  {
    if a != [] {
      var head := if a[0].category == category then [a[0]] else [];
      assert (a + b)[0] == a[0];
      assert (a + b)[1..] == a[1..] + b;
      assert KeepCategory(a + b, category) == head + KeepCategory(a[1..] + b, category);
      assert KeepCategory(a, category) == head + KeepCategory(a[1..], category);
      KeepCategoryAppend(a[1..], b, category);
    } else {
      assert a + b == b;
    }
  }

  /** The category view of the static list: the whole list for "All", otherwise one category. */
  function Filtered(list: seq<RawPraise>, category: string): (r: seq<RawPraise>)
    ensures category == ALL ==> r == list
    ensures category != ALL ==>
      forall p :: multiset(r)[p] == if p.category == category then multiset(list)[p] else 0
  {
    if category == ALL then list
    else KeepCategoryCounts(list, category); KeepCategory(list, category)
  }

  /** How `Array.prototype.slice` resolves an index: negative counts from the end, then clamp to [0, len]. */
  function RelativeIndex(k: int, len: nat): (r: nat)
    ensures r <= len
    ensures 0 <= k ==> r == if k < len then k else len
    ensures k < 0 ==> r == if len + k < 0 then 0 else len + k
  {
    if k < 0 then (if len + k < 0 then 0 else len + k)
    else if k < len then k else len
  }

  /** `s.slice(start, end)` */
  function JsSlice<T>(s: seq<T>, start: int, end: int): (r: seq<T>)
    ensures |r| <= |s|
    ensures |r| == if RelativeIndex(start, |s|) < RelativeIndex(end, |s|)
                   then RelativeIndex(end, |s|) - RelativeIndex(start, |s|) else 0
    ensures forall i :: 0 <= i < |r| ==> r[i] == s[RelativeIndex(start, |s|) + i]
  {
    var from, to := RelativeIndex(start, |s|), RelativeIndex(end, |s|);
    if from < to then s[from..to] else []
  }

  /** The batch a call works on: page `page` (counted from 1) of the category view. */
  function Batch(list: seq<RawPraise>, category: string, page: int, pageSize: int): seq<RawPraise>
  {
    var start := (page - 1) * pageSize;
    JsSlice(Filtered(list, category), start, start + pageSize)
  }

  /**
   * For a positive page and a non-negative page size the batch is exactly the
   * window `[(page-1)*pageSize, page*pageSize)` of the view, cut at its end;
   * it is empty once the window starts past the end.
   */
  lemma BatchIsWindow(list: seq<RawPraise>, category: string, page: int, pageSize: int)
    requires page >= 1 && pageSize >= 0
    ensures var f, start := Filtered(list, category), (page - 1) * pageSize;
      && start >= 0
      && Batch(list, category, page, pageSize) ==
           if start >= |f| then [] else f[start..if start + pageSize < |f| then start + pageSize else |f|]
    ensures |Batch(list, category, page, pageSize)| <= pageSize
  {
    var f, start := Filtered(list, category), (page - 1) * pageSize;
    assert start >= 0 by { MulNonNegative(page - 1, pageSize); }
    var b := Batch(list, category, page, pageSize);
    assert b == JsSlice(f, start, start + pageSize);
    assert RelativeIndex(start, |f|) == if start < |f| then start else |f|;
    var to := if start + pageSize < |f| then start + pageSize else |f|;
    assert RelativeIndex(start + pageSize, |f|) == to;
    if start < |f| {
      assert |b| == to - start;
      assert b == f[start..to];
    } else {
      assert |b| == 0;
    }
  }

  lemma MulNonNegative(a: int, b: int)
    requires a >= 0 && b >= 0
    ensures a * b >= 0
  {
  }

  /** Page 0 never has items: its window ends where the list starts. */
  lemma PageZeroIsEmpty(list: seq<RawPraise>, category: string, pageSize: int)
    requires pageSize >= 0
    ensures Batch(list, category, 0, pageSize) == []
  {
  }

  /**
   * Negative pages are not rejected: slice counts a negative window from the
   * end of the view, so page -1 yields the next-to-last window.
   */
  lemma NegativePageCountsFromEnd(list: seq<RawPraise>, category: string, pageSize: int)
    requires pageSize >= 0 && |Filtered(list, category)| >= 2 * pageSize
    ensures var f := Filtered(list, category);
      Batch(list, category, -1, pageSize) == f[|f| - 2 * pageSize..|f| - pageSize]
  {
    var f := Filtered(list, category);
    var b := Batch(list, category, -1, pageSize);
    assert (-1 - 1) * pageSize == -2 * pageSize;
    assert b == f[|f| - 2 * pageSize..|f| - pageSize];
  }

  // ------------------------------------------------------------------
  // Assembling a remote answer
  // ------------------------------------------------------------------

  /** The displayed record for one parsed object; unmatched ids keep empty text and the fallback category. */
  function AssembleOne(batch: seq<RawPraise>, rec: Record): PraiseItem
  {
    var original := FindFirst(batch, RawId, rec.id);
    PraiseItem(
      rec.id,
      rec.translatedText,
      if original.Some? then original.value.text else "",
      rec.phonetic,
      rec.ref,
      if original.Some? && original.value.category != "" then original.value.category else FALLBACK_CATEGORY)
  }

  /** `parsed.map(...)`: one displayed record per parsed object, in response order. */
  function Assemble(batch: seq<RawPraise>, parsed: seq<Record>): (r: seq<PraiseItem>)
    ensures |r| == |parsed|
    ensures forall i :: 0 <= i < |parsed| ==>
      && r[i].id == parsed[i].id
      && r[i].originalText == parsed[i].translatedText
      && r[i].phonetic == parsed[i].phonetic
      && r[i].reference == parsed[i].ref
    ensures forall i :: 0 <= i < |parsed| && (forall b :: b in batch ==> b.id != parsed[i].id) ==>
      r[i].translation == "" && r[i].category == FALLBACK_CATEGORY
    ensures forall i, j :: 0 <= i < |parsed| && 0 <= j < |batch| && batch[j].id == parsed[i].id &&
                           (forall k :: 0 <= k < j ==> batch[k].id != parsed[i].id) ==>
      && r[i].translation == batch[j].text
      && r[i].category == (if batch[j].category == "" then FALLBACK_CATEGORY else batch[j].category)
  {
    var r := seq(|parsed|, i requires 0 <= i < |parsed| => AssembleOne(batch, parsed[i]));
    forall i, j | 0 <= i < |parsed| && 0 <= j < |batch| && batch[j].id == parsed[i].id &&
                  (forall k :: 0 <= k < j ==> batch[k].id != parsed[i].id)
      ensures FindFirst(batch, RawId, parsed[i].id) == Some(batch[j])
    {
      assert FirstWith(batch, RawId, parsed[i].id, j);
    }
    r
  }

  // ------------------------------------------------------------------
  // Retry schedule
  // ------------------------------------------------------------------

  /** The sleeps taken before the attempts 1 .. k: attempt `a` failing with retries left sleeps `1000*(a+1)`. */
  function Backoff(k: nat): (d: seq<int>)
    ensures |d| == k
    ensures forall i :: 0 <= i < k ==> d[i] == BACKOFF_STEP_MS * (i + 1)
  {
    if k == 0 then [] else Backoff(k - 1) + [BACKOFF_STEP_MS * k]
  }

  function Sum(s: seq<int>): int
  {
    if s == [] then 0 else Sum(s[..|s| - 1]) + s[|s| - 1]
  }

  /** The total time slept before giving up after `k` retries grows quadratically. */
  lemma {:induction false} BackoffTotal(k: nat)
    ensures Sum(Backoff(k)) == 500 * k * (k + 1)
  {
    if k > 0 {
      var d := Backoff(k);
      assert d[..|d| - 1] == Backoff(k - 1);
      BackoffTotal(k - 1);
    }
  }

  /** With the default budget the sleeps are 1 s, 2 s and 3 s, six seconds in all. */
  lemma DefaultBackoff()
    ensures Backoff(DEFAULT_RETRIES) == [1000, 2000, 3000]
    ensures Sum(Backoff(DEFAULT_RETRIES)) == 6000
  {
    BackoffTotal(3);
  }

  /** The first attempt in `k .. last` whose answer is a parsed array. */
  function FirstOk(answer: nat -> Response, k: nat, last: int): (r: Option<nat>)
    ensures r.Some? ==> k <= r.value <= last && answer(r.value).RemoteOk? &&
                        forall j :: k <= j < r.value ==> answer(j).RemoteFail?
    ensures r.None? <==> forall j :: k <= j <= last ==> answer(j).RemoteFail?
    decreases last + 1 - k
  {
    if k > last then None
    else if answer(k).RemoteOk? then Some(k)
    else FirstOk(answer, k + 1, last)
  }

  // ------------------------------------------------------------------
  // The specification of one call
  // ------------------------------------------------------------------

  /** The observable state of the gateway: the cache, the sleeps taken so far, the remote calls made so far. */
  datatype State = State(cache: map<string, seq<PraiseItem>>, delays: seq<int>, calls: nat)

  /** The outcome of the attempt loop, started on a cache miss for a non-empty, non-English batch. */
  function RetrySpec(s: State, key: string, batch: seq<RawPraise>, retries: int, answer: nat -> Response)
    : (Fetched, State)
  {
    if retries < 0 then (Delivered([]), s)
    else match FirstOk(answer, 0, retries)
      case Some(k) =>
        var items := Assemble(batch, answer(k).parsed);
        (Delivered(items), State(s.cache[key := items], s.delays + Backoff(k), s.calls + k + 1))
      case None =>
        (Thrown, State(s.cache, s.delays + Backoff(retries), s.calls + retries + 1))
  }

  /** The outcome of `fetchPraisesBatch(page, lang, category, pageSize, retries)` from state `s`. */
  function FetchSpec(list: seq<RawPraise>, s: State, page: int, lang: string, category: string,
                     pageSize: int, retries: int, answer: nat -> Response): (Fetched, State)
  {
    var key := CacheKey(lang, category, page);
    if key in s.cache then (Delivered(s.cache[key]), s)
    else
      var batch := Batch(list, category, page, pageSize);
      if batch == [] then (Delivered([]), s)
      else if lang == SOURCE_LANGUAGE then (Delivered(Passthrough(batch)), s)
      else RetrySpec(s, key, batch, retries, answer)
  }

  /** A stored entry is returned unchanged, and nothing else happens. */
  lemma CacheHitReturnsStored(list: seq<RawPraise>, s: State, page: int, lang: string, category: string,
                              pageSize: int, retries: int, answer: nat -> Response)
    requires CacheKey(lang, category, page) in s.cache
    ensures FetchSpec(list, s, page, lang, category, pageSize, retries, answer)
            == (Delivered(s.cache[CacheKey(lang, category, page)]), s)
  {
  }

  /** English is served from the list itself: same order, both text fields the English text, no call, no cache write. */
  lemma EnglishIsPassthrough(list: seq<RawPraise>, s: State, page: int, category: string,
                             pageSize: int, retries: int, answer: nat -> Response)
    requires CacheKey(SOURCE_LANGUAGE, category, page) !in s.cache
    ensures var (r, s') := FetchSpec(list, s, page, SOURCE_LANGUAGE, category, pageSize, retries, answer);
      var batch := Batch(list, category, page, pageSize);
      && s' == s
      && r.Delivered? && |r.items| == |batch|
      && forall i :: 0 <= i < |batch| ==>
           r.items[i].originalText == batch[i].text && r.items[i].translation == batch[i].text &&
           r.items[i].reference == batch[i].ref && r.items[i].id == batch[i].id
  {
  }

  /** A page past the end of the view costs nothing: the answer is empty and the state is untouched. */
  lemma PastLastPageIsFree(list: seq<RawPraise>, s: State, page: int, lang: string, category: string,
                           pageSize: int, retries: int, answer: nat -> Response)
    requires page >= 1 && pageSize >= 0
    requires (page - 1) * pageSize >= |Filtered(list, category)|
    requires CacheKey(lang, category, page) !in s.cache
    ensures FetchSpec(list, s, page, lang, category, pageSize, retries, answer) == (Delivered([]), s)
  {
    BatchIsWindow(list, category, page, pageSize);
  }

  /**
   * Three English entries in pages of two, with nothing cached: page 1 holds
   * the first two, page 2 the third, page 3 nothing, and no remote call is made.
   */
  lemma ThreeEntriesInPagesOfTwo(a: RawPraise, b: RawPraise, c: RawPraise, s: State, retries: int, answer: nat -> Response)
    requires s.cache == map[]
    ensures FetchSpec([a, b, c], s, 1, SOURCE_LANGUAGE, ALL, 2, retries, answer) ==
              (Delivered([Untranslated(a), Untranslated(b)]), s)
    ensures FetchSpec([a, b, c], s, 2, SOURCE_LANGUAGE, ALL, 2, retries, answer) == (Delivered([Untranslated(c)]), s)
    ensures FetchSpec([a, b, c], s, 3, SOURCE_LANGUAGE, ALL, 2, retries, answer) == (Delivered([]), s)
  {
    var list := [a, b, c];
    assert Filtered(list, ALL) == list;
    BatchIsWindow(list, ALL, 1, 2);
    BatchIsWindow(list, ALL, 2, 2);
    BatchIsWindow(list, ALL, 3, 2);
    assert Batch(list, ALL, 1, 2) == list[0..2] == [a, b];
    assert Batch(list, ALL, 2, 2) == list[2..3] == [c];
    assert Passthrough([a, b]) == [Untranslated(a), Untranslated(b)];
    assert Passthrough([c]) == [Untranslated(c)];
  }

  /**
   * The cache changes only by storing, under the call's key, exactly the
   * list a successful remote attempt returned. A thrown call leaves it as it was.
   */
  lemma OnlySuccessIsCached(list: seq<RawPraise>, s: State, page: int, lang: string, category: string,
                            pageSize: int, retries: int, answer: nat -> Response)
    ensures var (r, s') := FetchSpec(list, s, page, lang, category, pageSize, retries, answer);
      && (s'.cache == s.cache || (r.Delivered? && lang != SOURCE_LANGUAGE &&
                                  s'.cache == s.cache[CacheKey(lang, category, page) := r.items]))
      && (r.Thrown? ==> s'.cache == s.cache)
  {
  }

  /**
   * A call makes at most `retries + 1` remote attempts. When every attempt
   * fails it makes exactly that many, sleeps 1000, 2000, ... ms between them,
   * and throws.
   */
  lemma AttemptBudget(list: seq<RawPraise>, s: State, page: int, lang: string, category: string,
                      pageSize: int, retries: int, answer: nat -> Response)
    ensures var (r, s') := FetchSpec(list, s, page, lang, category, pageSize, retries, answer);
      && s.calls <= s'.calls <= s.calls + (if retries < 0 then 0 else retries + 1)
      && (r.Thrown? ==> retries >= 0 && s'.calls == s.calls + retries + 1 &&
                        s'.delays == s.delays + Backoff(retries) &&
                        forall k :: 0 <= k <= retries ==> answer(k).RemoteFail?)
  {
  }

  /**
   * A remote fetch whose every attempt fails throws after `retries + 1` calls
   * and the linear sleeps between them, and caches nothing; a negative budget
   * makes no attempt and returns the empty list.
   */
  lemma ExhaustedBudgetThrows(list: seq<RawPraise>, s: State, page: int, lang: string, category: string,
                              pageSize: int, retries: int, answer: nat -> Response)
    requires CacheKey(lang, category, page) !in s.cache
    requires Batch(list, category, page, pageSize) != [] && lang != SOURCE_LANGUAGE
    ensures retries >= 0 && (forall k :: 0 <= k <= retries ==> answer(k).RemoteFail?) ==>
      FetchSpec(list, s, page, lang, category, pageSize, retries, answer) ==
        (Thrown, State(s.cache, s.delays + Backoff(retries), s.calls + retries + 1))
    ensures retries < 0 ==>
      FetchSpec(list, s, page, lang, category, pageSize, retries, answer) == (Delivered([]), s)
  {
  }

  /**
   * The attempt loop returns the first parsed answer: earlier failures only
   * add their sleeps.
   */
  lemma RetryReturnsFirstSuccess(s: State, key: string, batch: seq<RawPraise>, retries: int,
                                 answer: nat -> Response, k: nat)
    requires k <= retries && answer(k).RemoteOk?
    requires forall j :: 0 <= j < k ==> answer(j).RemoteFail?
    ensures RetrySpec(s, key, batch, retries, answer) ==
      (Delivered(Assemble(batch, answer(k).parsed)),
       State(s.cache[key := Assemble(batch, answer(k).parsed)], s.delays + Backoff(k), s.calls + k + 1))
  {
  }

  /** Asking again for what was just delivered returns the same list and makes no remote call. */
  lemma RefetchIsStable(list: seq<RawPraise>, s: State, page: int, lang: string, category: string,
                        pageSize: int, retries: int, answer: nat -> Response, answer2: nat -> Response)
    ensures var (r1, s1) := FetchSpec(list, s, page, lang, category, pageSize, retries, answer);
      var (r2, s2) := FetchSpec(list, s1, page, lang, category, pageSize, retries, answer2);
      r1.Delivered? ==> r2 == r1 && s2 == s1
  {
  }

  // ------------------------------------------------------------------
  // The stateful gateway
  // ------------------------------------------------------------------

  /** The module-level cache together with the record of sleeps and remote calls. */
  class Service {
    const list: seq<RawPraise>
    var cache: map<string, seq<PraiseItem>>
    var delays: seq<int>
    var calls: nat

    function Current(): State
      reads this
    {
      State(cache, delays, calls)
    }

    constructor (list: seq<RawPraise>)
      ensures this.list == list && Current() == State(map[], [], 0)
    {
      this.list := list;
      cache := map[];
      delays := [];
      calls := 0;
    }

    /** The attempt loop: at most `retries + 1` attempts, a linear sleep after each failure that has retries left. */
    method RequestWithRetry(key: string, batch: seq<RawPraise>, retries: int, answer: nat -> Response)
      returns (r: Fetched)
      modifies this
      ensures (r, Current()) == RetrySpec(old(Current()), key, batch, retries, answer)
    {
      var attempt := 0;
      while attempt <= retries
        invariant 0 <= attempt <= if retries < 0 then 0 else retries
        invariant forall j :: 0 <= j < attempt ==> answer(j).RemoteFail?
        invariant cache == old(cache)
        invariant delays == old(delays) + Backoff(attempt)
        invariant calls == old(calls) + attempt
        decreases retries - attempt
      {
        calls := calls + 1;
        var response := answer(attempt);
        if response.RemoteOk? {
          var results := Assemble(batch, response.parsed);
          cache := cache[key := results];
          RetryReturnsFirstSuccess(old(Current()), key, batch, retries, answer, attempt);
          return Delivered(results);
        }
        if attempt < retries {
          delays := delays + [BACKOFF_STEP_MS * (attempt + 1)];
          attempt := attempt + 1;
        } else {
          assert FirstOk(answer, 0, retries).None?;
          return Thrown;
        }
      }
      assert delays == old(delays);
      return Delivered([]);
    }

    /** `fetchPraisesBatch`: cache lookup, page selection, English passthrough, then the remote attempts. */
    method FetchPraisesBatch(page: int, lang: string, category: string, pageSize: int, retries: int,
                             answer: nat -> Response)
      returns (r: Fetched)
      modifies this
      ensures (r, Current()) == FetchSpec(list, old(Current()), page, lang, category, pageSize, retries, answer)
    {
      var key := CacheKey(lang, category, page);
      if key in cache {
        return Delivered(cache[key]);
      }
      var filtered := Filtered(list, category);
      var start := (page - 1) * pageSize;
      var batch := JsSlice(filtered, start, start + pageSize);
      if |batch| == 0 {
        return Delivered([]);
      }
      if lang == SOURCE_LANGUAGE {
        return Delivered(Passthrough(batch));
      }
      r := RequestWithRetry(key, batch, retries, answer);
    }
  }

  // ------------------------------------------------------------------
  // Audio payload decoding
  // ------------------------------------------------------------------

  newtype byte = x: int | 0 <= x < 256

  /**
   * The copy loop after base64 decoding: byte `i` is the code of character `i`
   * of the binary string, reduced to 8 bits as a `Uint8Array` store does.
   */
  method DecodeBase64(binary: string) returns (bytes: array<byte>)
    ensures bytes.Length == |binary|
    ensures forall i :: 0 <= i < |binary| ==> bytes[i] as int == (binary[i] as int) % 256
  {
    bytes := new byte[|binary|];
    var i := 0;
    while i < |binary|
      invariant 0 <= i <= |binary|
      invariant forall j :: 0 <= j < i ==> bytes[j] as int == (binary[j] as int) % 256
    {
      bytes[i] := ((binary[i] as int) % 256) as byte;
      i := i + 1;
    }
  }

  /** The binary string a byte sequence stands for, one character per byte. */
  function BytesToBinary(bytes: seq<byte>): (s: string)
    ensures |s| == |bytes|
    ensures forall i :: 0 <= i < |bytes| ==> s[i] as int == bytes[i] as int
  {
    seq(|bytes|, i requires 0 <= i < |bytes| => bytes[i] as int as char)
  }

  /**
   * Base64 decoding only produces characters below 256, and for those the
   * bytes the copy loop stores give the binary string back.
   */
  lemma ByteCopyLosesNothing(binary: string, bytes: seq<byte>)
    requires forall i :: 0 <= i < |binary| ==> binary[i] as int < 256
    requires |bytes| == |binary|
    requires forall i :: 0 <= i < |binary| ==> bytes[i] as int == (binary[i] as int) % 256
    ensures BytesToBinary(bytes) == binary
  {
    assert forall i :: 0 <= i < |binary| ==> BytesToBinary(bytes)[i] == binary[i];
  }

  /** A little-endian 16-bit two's-complement sample from its low and high byte. */
  function Int16At(lo: byte, hi: byte): (v: int)
    ensures -32768 <= v < 32768
    ensures (v + 65536) % 65536 == lo as int + 256 * hi as int
  {
    var u := lo as int + 256 * hi as int;
    if u >= 32768 then u - 65536 else u
  }

  /** The `Int16Array` view of an even-length byte buffer (little-endian platform). */
  function Int16View(data: seq<byte>): (s: seq<int>)
    requires |data| % 2 == 0
    ensures |s| == |data| / 2
    ensures forall k :: 0 <= k < |s| ==> s[k] == Int16At(data[2 * k], data[2 * k + 1])
  {
    seq(|data| / 2, k requires 0 <= k < |data| / 2 => Int16At(data[2 * k], data[2 * k + 1]))
  }

  lemma FrameIndexInRange(n: nat, channels: nat, c: nat, i: nat)
    requires channels >= 1 && c < channels && i < n / channels
    ensures i * channels + c < n
  {
    assert (i + 1) * channels <= (n / channels) * channels;
  }

  lemma NoWholeFrame(n: nat, channels: nat)
    requires channels >= 1
    ensures n / channels == 0 <==> n < channels
  {
    if n >= channels {
      assert n == channels * (n / channels) + n % channels;
    }
  }

  /** Sample `i` of channel `c` of an interleaved sample sequence, scaled to [-1, 1). */
  function ChannelSample(samples: seq<int>, channels: nat, c: nat, i: nat): (v: real)
    requires channels >= 1 && c < channels && i < |samples| / channels
    requires forall k :: 0 <= k < |samples| ==> -32768 <= samples[k] < 32768
    ensures -1.0 <= v < 1.0
  {
    FrameIndexInRange(|samples|, channels, c, i);
    samples[i * channels + c] as real / 32768.0
  }

  /** The inner loop of `decodeAudioData`: row `channel` receives that channel's scaled samples; no other row changes. */
  method FillChannel(out: array2<real>, samples: seq<int>, channels: nat, channel: nat)
    requires channels >= 1 && channel < channels == out.Length0 && out.Length1 == |samples| / channels
    requires forall k :: 0 <= k < |samples| ==> -32768 <= samples[k] < 32768
    modifies out
    ensures forall i :: 0 <= i < out.Length1 ==> out[channel, i] == ChannelSample(samples, channels, channel, i)
    ensures forall c, i :: 0 <= c < out.Length0 && c != channel && 0 <= i < out.Length1 ==> out[c, i] == old(out[c, i])
  {
    var i := 0;
    while i < out.Length1
      invariant 0 <= i <= out.Length1
      invariant forall j :: 0 <= j < i ==> out[channel, j] == ChannelSample(samples, channels, channel, j)
      invariant forall c, j :: 0 <= c < out.Length0 && c != channel && 0 <= j < out.Length1 ==> out[c, j] == old(out[c, j])
    {
      FrameIndexInRange(|samples|, channels, channel, i);
      out[channel, i] := samples[i * channels + channel] as real / 32768.0;
      i := i + 1;
    }
  }

  /** The channel count every audio platform must accept in a buffer. */
  const MAX_CHANNELS: nat := 32

  /**
   * `decodeAudioData`: splits the interleaved 16-bit samples into one buffer
   * per channel of `len / channels` frames. It fails when the byte count is
   * odd (the bytes cannot be viewed as 16-bit samples) and when there is not
   * one whole frame (an audio buffer needs at least one).
   */
  method DecodeAudioData(data: array<byte>, channels: nat) returns (buffer: Option<array2<real>>)
    requires 1 <= channels <= MAX_CHANNELS
    ensures buffer.None? <==> data.Length % 2 != 0 || data.Length / 2 < channels
    ensures buffer.Some? ==>
      var samples := Int16View(data[..]);
      && buffer.value.Length0 == channels
      && buffer.value.Length1 == |samples| / channels
      && forall c, i :: 0 <= c < channels && 0 <= i < |samples| / channels ==>
           buffer.value[c, i] == ChannelSample(samples, channels, c, i)
  {
    if data.Length % 2 != 0 {
      return None;
    }
    var samples := Int16View(data[..]);
    var frameCount := |samples| / channels;
    NoWholeFrame(|samples|, channels);
    if frameCount == 0 {
      return None;
    }
    var out := new real[channels, frameCount];
    var channel := 0;
    while channel < channels
      invariant 0 <= channel <= channels
      invariant forall c, i :: 0 <= c < channel && 0 <= i < frameCount ==>
                  out[c, i] == ChannelSample(samples, channels, c, i)
    {
      FillChannel(out, samples, channels, channel);
      channel := channel + 1;
    }
    return Some(out);
  }
}

=== FILE: types.dfy ===
/**
 * The records shared by the gateway, the application state and the praise card:
 * the static source entry, the displayed (possibly translated) item, and the
 * language descriptor.
 */
module Types {

  datatype Option<+T> = None | Some(value: T)

  /** One entry of the static praise list: identity, English text, scripture reference, topic. */
  datatype RawPraise = RawPraise(id: int, text: string, ref: string, category: string)

  /**
   * What the interface displays. `originalText` is the text in the selected
   * language, `translation` the English source text.
   */
  datatype PraiseItem = PraiseItem(
    id: int,
    originalText: string,
    translation: string,
    phonetic: Option<string>,
    reference: string,
    category: string)

  datatype Language = Language(code: string, name: string, nativeName: string, rtl: bool)

  function RawId(p: RawPraise): int { p.id }
  function ItemId(p: PraiseItem): int { p.id }
  function LanguageCode(l: Language): string { l.code }

  /** Position `i` holds the first element of `xs` whose key is `k`. */
  predicate FirstWith<T, K(==)>(xs: seq<T>, key: T -> K, k: K, i: int)
  {
    0 <= i < |xs| && key(xs[i]) == k && forall j :: 0 <= j < i ==> key(xs[j]) != k
  }

  /**
   * `xs.find(x => key(x) === k)`: nothing when no element has the key,
   * otherwise the first element that has it.
   */
  function FindFirst<T(==), K(==)>(xs: seq<T>, key: T -> K, k: K): (r: Option<T>)
    ensures r.None? <==> forall i :: 0 <= i < |xs| ==> key(xs[i]) != k
    ensures r.Some? ==> exists i :: FirstWith(xs, key, k, i) && xs[i] == r.value
    ensures forall i :: FirstWith(xs, key, k, i) ==> r == Some(xs[i])
  {
    if xs == [] then None
    else if key(xs[0]) == k then
      assert FirstWith(xs, key, k, 0);
      Some(xs[0])
    else
      var rest := FindFirst(xs[1..], key, k);
      assert forall i :: FirstWith(xs, key, k, i) ==> FirstWith(xs[1..], key, k, i - 1) by {
        forall i | FirstWith(xs, key, k, i) ensures FirstWith(xs[1..], key, k, i - 1) {
          assert i != 0;
          forall j | 0 <= j < i - 1 ensures key(xs[1..][j]) != k {
            assert xs[1..][j] == xs[j + 1];
          }
        }
      }
      if rest.Some? then
        var m :| FirstWith(xs[1..], key, k, m) && xs[1..][m] == rest.value;
        assert FirstWith(xs, key, k, m + 1) by {
          forall j | 0 <= j < m + 1 ensures key(xs[j]) != k {
            if j > 0 { assert xs[j] == xs[1..][j - 1]; }
          }
        }
        rest
      else
        rest
  }

  /** The category value that disables filtering. */
  const ALL: string := "All"

  /** The language code of the static list; it is shown without translation. */
  const SOURCE_LANGUAGE: string := "en"

  /** The display record of an untranslated entry: text in both text fields, no phonetic. */
  function Untranslated(raw: RawPraise): (item: PraiseItem)
    ensures item.id == raw.id && item.reference == raw.ref && item.category == raw.category
    ensures item.originalText == raw.text && item.translation == raw.text && item.phonetic == None
  {
    PraiseItem(raw.id, raw.text, raw.text, None, raw.ref, raw.category)
  }

  /** Every entry of a list in its untranslated display form, in the same order. */
  function Passthrough(batch: seq<RawPraise>): (r: seq<PraiseItem>)
    ensures |r| == |batch|
    ensures forall i :: 0 <= i < |batch| ==> r[i] == Untranslated(batch[i])
  {
    seq(|batch|, i requires 0 <= i < |batch| => Untranslated(batch[i]))
  }

  /**
   * The text handed to speech synthesis for an item: the text, then the
   * reference after a fixed separator.
   */
  function SpokenText(text: string, reference: string): (s: string)
    ensures |s| == |text| + |". Reference: "| + |reference|
    ensures s[..|text|] == text
    ensures s[|text|..|text| + 13] == ". Reference: "
    ensures s[|s| - |reference|..] == reference
  {
    text + ". Reference: " + reference
  }

  /**
   * Two spoken texts that use the same reference are equal exactly when
   * their leading texts are equal: the separator never blurs two items.
   */
  lemma SpokenTextInjective(t1: string, t2: string, reference: string)
    ensures SpokenText(t1, reference) == SpokenText(t2, reference) <==> t1 == t2
  {
    if SpokenText(t1, reference) == SpokenText(t2, reference) {
      var s := SpokenText(t1, reference);
      assert |t1| == |t2|;
      assert t1 == s[..|t1|] == t2;
    }
  }
}
